=== FILE: README.md ===
# SPNEGO NegTokenInit codec and Kerberos accept lifecycle, in Dafny

This project models the acceptor side of the SPNEGO/Kerberos negotiation layer of
`com.tractionsoftware.kerberos` and proves properties of that model. It covers three parts:

- **`NegTokenInit` codec** (`neg_token_init.dfy`, module `NegToken`).
  - Decode reads the framing of section 3.1 of RFC 2743: an application-tagged wrapper whose first object is a mechanism OID.
  - A Kerberos v5 OID takes the legacy path: the whole input array becomes the mechToken.
  - A SPNEGO OID leads to a structural decode of the NegTokenInit fields of section 4.2.1 of RFC 4178.
  - Any other OID is rejected.
  - Encode builds the object list of an initial SPNEGO offer.
  - The codec works on the DER object tree (`der.dfy`, module `Der`), not on bytes.
- **Session-setup lifecycle** (`session_setup.dfy`, module `SessionSetup`).
  - `GSSData.create` acquires the provider handles, and `close`/`closeImpl` dispose them and aggregate failures.
  - `run` and `call` combine the two with Java's try-with-resources statement (JLS section 14.20.3) and a `catch (GSSException)`.
  - Java exceptions are values: a kind (GSS or runtime), an identity, and the list of suppressed exceptions (`exceptions.dfy`).
- **`KerberosDetails`** (`kerberos_details.dfy`, module `Details`).
  - The summary of an accept, whose fields are final.
  - Its user-name and domain views, split at the first `@`.
  - The response-length view.
  - The session-key-algorithm inquiry.

The mechanism OID constants of `CommonOids` are model constants in `oids.dfy` (module `Oids`). `wrappers.dfy` holds `Option` (Java `null`) and `Result` (returns or throws).

Modelling assumptions:
- **The DER library is a parameter.**
  - `Decode` takes an `Unpacker`: the DER buffer over `buf[off..off+len]`, given as the outcomes of its two reads. These are `unpackApplicationSpecific` for the first object inside the application wrapper, and `unpackObject` for the next one. Each read yields an object, no object, or a library failure.
  - The second read is consulted only on the SPNEGO path. The Kerberos v5 path never depends on it.
  - An absent object fails the `instanceof` test like a wrong one.
  - For the lemmas relating decode to encode, the buffer over a packed object list reads back its first and second objects (`NegToken.Reading`).
  - `getTaggedObject(n)` is taken to be the first child whose tag number is `n` (`Der.FirstTagged`). An OID carries no tag, so this lookup never finds one.
  - That library is not part of this model.
- **OID validity is a parameter.** `new Oid(s)` is a predicate `valid` supplied by the caller, and a valid OID's `toString` is taken to give back `s`.
- **The GSS provider is a parameter.** `SessionSetup.Provider` lists the outcome of every provider call one run can make: `Ok`, a `GSSException` (`GssErr`) or a `RuntimeException` (`RtErr`).

Behaviours of the code worth knowing (some depart from RFC 4178):
- **Decoding an encoded token.**
  - Encode never emits tag 2, and decode requires it. So decoding an encoded token always fails, with "No mechToken in blob", or earlier with "Bad mechType OID" (`NegToken.DecodeRejectsEncoding`).
  - The mechanism list is recovered only once a tag-2 token is added (`NegToken.EncodedMechListRecovered`).
- **An empty mechanism list is not an encoding error** (`NegToken.EmptyMechListEncodes`). Apart from a failure of the external DER packer (NegTokenInit.java:279-285), encoding fails only on a null array or a null slot, through a null dereference.
- **Failed context flags.** A missing or mistyped tag 1 leaves the flags at their previous value, which is -1 on a freshly built token.
- **Which disposal error is thrown.** When both disposals fail, a GSS failure of the credential is the exception thrown, with the context's failure suppressed on it. The context's failure is primary only when the credential failed at runtime. When both fail at runtime, the credential's failure is dropped.
- **A disposal failure after a successful accept and `createInstance` discards the details.** A GSS disposal failure makes `run` return null. A runtime disposal failure escapes. Neither result is reported separately. When `createInstance` itself fails, the disposal failure is suppressed onto that failure instead.

## Model

| member | source | states |
|---|---|---|
| Der.FirstTagged | src/main/java/com/tractionsoftware/kerberos/NegTokenInit.java:320-323 | `getTaggedObject(n)`: absent exactly when no child has tag `n`; otherwise the child at the first index carrying tag `n` |
| Der.FirstTaggedFinds | src/main/java/com/tractionsoftware/kerberos/NegTokenInit.java:347-357 | a child carrying tag `n` with no earlier child carrying it is what the tagged lookup returns |
| NegToken.ForDecoding | src/main/java/com/tractionsoftware/kerberos/NegTokenInit.java:46-60 | the decoding constructor leaves no mechanism array, no token, no principal, and the context flags at -1 |
| NegToken.ForEncoding | src/main/java/com/tractionsoftware/kerberos/NegTokenInit.java:70-86 | the encoding constructors store the mechanism array and principal as given, with flags -1 and no token |
| NegToken.NumberOfOids | src/main/java/com/tractionsoftware/kerberos/NegTokenInit.java:184-186 | 0 when there is no mechanism array, else the array length |
| NegToken.GetOidAt | src/main/java/com/tractionsoftware/kerberos/NegTokenInit.java:195-200 | a present result lies at an in-range index; every in-range index gives that slot; out of range gives null |
| NegToken.HasOid | src/main/java/com/tractionsoftware/kerberos/NegTokenInit.java:169-177 | true exactly when some in-range index holds the OID; false with no array |
| NegToken.OidChildrenAppend | src/main/java/com/tractionsoftware/kerberos/NegTokenInit.java:333-342 | collecting OID children keeps their order: it distributes over concatenation |
| NegToken.OidChildrenBound | src/main/java/com/tractionsoftware/kerberos/NegTokenInit.java:330-337 | there are never more collected OIDs than children, so the index never overruns the array |
| NegToken.MechTypeArray | src/main/java/com/tractionsoftware/kerberos/NegTokenInit.java:330-343 | fails with "Bad mechType OID" exactly when an OID child is invalid; otherwise the array has one slot per child, the OID children in order at the front and empty slots after them |
| NegToken.UnpackMechTypes | src/main/java/com/tractionsoftware/kerberos/NegTokenInit.java:330-343 | the index-based loop of `decodeMechTypes` computes exactly the mechanism array described above |
| NegToken.ContextFlags | src/main/java/com/tractionsoftware/kerberos/NegTokenInit.java:345-354 | the flags become the tag-1 bit string's value only when that field is a bit string; otherwise they keep their previous value |
| NegToken.DecodeFields | src/main/java/com/tractionsoftware/kerberos/NegTokenInit.java:314-375 | succeeds exactly when tag 0 is a sequence whose OID children are all valid (other children are skipped) and tag 2 is an octet string; gives each error in the code's order; on success sets mechTypes, flags and mechToken; tag 3 and the principal are untouched |
| NegToken.SetAlreadyDecoded | src/main/java/com/tractionsoftware/kerberos/NegTokenInit.java:297-301 | a bare Kerberos v5 token has Kerberos v5 as its only mechanism and the whole input array as mechToken; flags and principal are unchanged |
| NegToken.DecodeFromSpnego | src/main/java/com/tractionsoftware/kerberos/NegTokenInit.java:303-312 | the second read of the buffer must succeed and find a sequence: a library failure fails decode, anything else gives "Bad object type"; a sequence's children are decoded as fields |
| NegToken.DecodeWithOid | src/main/java/com/tractionsoftware/kerberos/NegTokenInit.java:288-295 | Kerberos v5 takes the already-decoded path; SPNEGO reads on to the structural decode; any other OID is rejected |
| NegToken.Decode | src/main/java/com/tractionsoftware/kerberos/NegTokenInit.java:214-226 | a library failure on the first read fails decode; a first object that is absent or not an OID is an invalid blob; an OID decides the branch. Success keeps the principal and sets both mechTypes and mechToken |
| NegToken.KerberosPathIgnoresRest | src/main/java/com/tractionsoftware/kerberos/NegTokenInit.java:291-301 | when the first read finds the Kerberos v5 OID, decode succeeds with the whole input array as mechToken whatever the byte range and whatever the rest of the buffer holds, even an unreadable rest |
| NegToken.MechOidObjects | src/main/java/com/tractionsoftware/kerberos/NegTokenInit.java:252-254 | fails exactly when a slot is null; otherwise gives one DER OID per mechanism, in array order |
| NegToken.Encode | src/main/java/com/tractionsoftware/kerberos/NegTokenInit.java:235-286 | fails exactly on a null array or slot; otherwise gives the SPNEGO OID and a tag-0 sequence holding the tag-0 mechanism list followed by the tag-3 principal part, present exactly when there is a principal |
| NegToken.EncodedFieldTags | src/main/java/com/tractionsoftware/kerberos/NegTokenInit.java:244-275 | the encoded fields have the mechanism list under tag 0 and no tag-1 or tag-2 field |
| NegToken.EncodedOidChildren | src/main/java/com/tractionsoftware/kerberos/NegTokenInit.java:252-254 | collecting the OIDs of an encoded mechanism list gives back the mechanisms in order |
| NegToken.DecodeRejectsEncoding | src/main/java/com/tractionsoftware/kerberos/NegTokenInit.java:357-360 | decoding any encoded token fails: "No mechToken in blob" when its OIDs are valid, "Bad mechType OID" otherwise |
| NegToken.EncodedMechListRecovered | src/main/java/com/tractionsoftware/kerberos/NegTokenInit.java:330-365 | adding a tag-2 token to an encoding makes decode recover the exact mechanism array and that token, with flags -1 |
| NegToken.SpnegoKerberosOffer | src/main/java/com/tractionsoftware/kerberos/NegTokenInit.java:314-365 | a SPNEGO offer of Kerberos v5 with flags 0x20 and token 01 02 03 decodes to one OID with those flags and token; `hasOid` holds for Kerberos v5 and fails for NTLMSSP |
| NegToken.EmptyMechListEncodes | src/main/java/com/tractionsoftware/kerberos/NegTokenInit.java:249-256 | an empty mechanism list encodes to an empty tag-0 sequence rather than failing |
| Oids.ParseOid | src/main/java/com/tractionsoftware/kerberos/NegTokenInit.java:336-341 | `new Oid(s)` yields a value exactly when `s` is valid, and that value's dotted form is `s` |
| Details.SessionKeyAlgorithm | src/main/java/com/tractionsoftware/kerberos/KerberosDetails.java:52-64 | present exactly when the context is extended and the inquiry yields an encryption key, and then it is that key's algorithm |
| Details.New | src/main/java/com/tractionsoftware/kerberos/KerberosDetails.java:86-92 | the constructor stores the names, lifetime, algorithm and response verbatim, and each getter returns what was stored |
| Details.CreateInstance | src/main/java/com/tractionsoftware/kerberos/KerberosDetails.java:42-50 | succeeds exactly when both name lookups succeed; the initiator's failure comes before the acceptor's; on success stores the context's names, lifetime, algorithm and the response |
| Details.IndexOf | src/main/java/com/tractionsoftware/kerberos/KerberosDetails.java:138 | -1 exactly when the character is absent; otherwise its first position |
| Details.UserName | src/main/java/com/tractionsoftware/kerberos/KerberosDetails.java:134-143 | null exactly when the source is null; otherwise an `@`-free prefix of the source that ends at its first `@`, or the whole source when it has no `@` |
| Details.Domain | src/main/java/com/tractionsoftware/kerberos/KerberosDetails.java:145-154 | present exactly when the source has an `@`; then it is the suffix after the first `@`, possibly empty |
| Details.SplitAtFirstAt | src/main/java/com/tractionsoftware/kerberos/KerberosDetails.java:134-154 | with an `@` in the source, user name + "@" + domain == source, and the user name has no `@` |
| Details.NoRealm | src/main/java/com/tractionsoftware/kerberos/KerberosDetails.java:140-153 | without an `@`, the user name is the source and the domain is null |
| Details.ResponseLength | src/main/java/com/tractionsoftware/kerberos/KerberosDetails.java:161-163 | the token length, 0 for a null token; zero exactly when there are no response bytes |
| SessionSetup.Create | src/main/java/com/tractionsoftware/kerberos/SessionSetupPrivilegedAction.java:43-66 | returns the open resource exactly when name, credential and context creation all succeed. A name or credential failure propagates with nothing disposed. A context failure disposes the credential, suppresses any disposal failure onto the creation failure, and rethrows it |
| SessionSetup.CloseImpl | src/main/java/com/tractionsoftware/kerberos/SessionSetupPrivilegedAction.java:93-136 | the aggregated disposal failure, case by case: a credential GSS failure is thrown with any context failure suppressed; a credential runtime failure with a context GSS failure throws the context's with the credential's suppressed; two runtime failures throw the context's alone; a single failure is thrown alone |
| SessionSetup.CloseImplKind | src/main/java/com/tractionsoftware/kerberos/SessionSetupPrivilegedAction.java:130-135 | disposal throws exactly when a disposal fails, and throws a GSS exception exactly when one of them failed with GSS |
| SessionSetup.Close | src/main/java/com/tractionsoftware/kerberos/SessionSetupPrivilegedAction.java:82-87 | always leaves the resource closed; an open resource disposes the credential then the context, whatever the credential did; a closed one disposes nothing |
| SessionSetup.CloseIdempotent | src/main/java/com/tractionsoftware/kerberos/SessionSetupPrivilegedAction.java:83-94 | a second close disposes nothing, throws nothing, and leaves the state unchanged |
| SessionSetup.TryWithResources | src/main/java/com/tractionsoftware/kerberos/SessionSetupPrivilegedAction.java:168-175 | succeeds only when both the body and the close succeed; a body failure stays primary, with the close failure appended to its suppressed list; a close failure replaces a normal result |
| SessionSetup.Body | src/main/java/com/tractionsoftware/kerberos/SessionSetupPrivilegedAction.java:169-174 | the body succeeds exactly when the accept and both name lookups succeed; an accept failure is what it throws |
| SessionSetup.CatchGss | src/main/java/com/tractionsoftware/kerberos/SessionSetupPrivilegedAction.java:176-179 | GSS failures become null; runtime failures escape unchanged |
| SessionSetup.Run | src/main/java/com/tractionsoftware/kerberos/SessionSetupPrivilegedAction.java:167-180 | every acquired handle is disposed exactly once, in acquisition order. Details are returned exactly when every provider call succeeds. A failure of create gives null when it is GSS and escapes when it is runtime. A GSS failure in the body gives null. A close failure after a good body replaces the details. A body runtime failure escapes carrying the close failure. Only runtime failures escape |
| SessionSetup.Call | src/main/java/com/tractionsoftware/kerberos/SessionSetupPrivilegedAction.java:183-185 | `call` behaves exactly as `run` |

## Left out

- DER byte-level packing and unpacking (ITU-T X.690) belongs to the external DER library (`com.tractionsoftware.asn`). The model starts from the object tree it yields and stops at the object list handed to the packer.
- The GSS/Kerberos provider is not modelled. Only the outcome of each call is, as a parameter: name, credential and context creation, accept, the name lookups, the session-key inquiry and the two disposals.
- The account name, the inbound blob and its offset and length only reach the provider, so they appear in the model only through the outcomes of its calls.
- Which strings `new Oid(..)` accepts, and `Oid.containedIn`, are left to the parameter `valid` and to plain membership.
- `CommonOids` initialisation and its logging are not modelled: its constants are valid literals, used here directly.
- NegToken.Decode: on failure only the error is modelled. The mechanism array and flags that `decodeMechTypes` has already stored in the object before it throws are not.
- Details.New: a null `GSSName` dereferenced in the constructor is not modelled. The names are their string forms.
- Details.SessionKeyAlgorithm: a runtime failure of `getAlgorithm` itself is not modelled.
- Java arrays are stored and returned by reference: the mechanism array (NegTokenInit.java:71), the Kerberos mechToken, which is the caller's input array (NegTokenInit.java:300), and the response token (KerberosDetails.java:91 and 125-127). A caller mutating one later changes what the object reports. The model treats arrays as immutable values, so this aliasing is not modelled.
- Logging, `toString` formatting, the plain getters (datatype fields here) and the `PrivilegedAction`/`Callable` interfaces are not modelled.
- Concurrency is not modelled: one run owns its resource and shares no mutable state.
- Java's 32-bit `int` for context flags, lifetimes and lengths is modelled as unbounded: the model does no arithmetic on them.

=== FILE: der.dfy ===
/**
 The DER object tree that the (unmodelled) DER library produces when it unpacks a
 buffer, and consumes when it packs one. Only the shapes the negotiation codec
 inspects are represented; the byte-level encoding of ITU-T X.690 is not.
 */
module Der {
  import opened Wrappers

  newtype byte = x: int | 0 <= x < 256

  /**
   A decoded DER object. Every variant except `Oid` carries the context tag number
   that the library's `setTagNo`/`getTagNo` manipulate.
   */
  datatype DerObject =
    | Oid(id: string)
    | Sequence(tag: int, children: seq<DerObject>)
    | BitString(tag: int, bits: int)
    | OctetString(tag: int, octets: seq<byte>)
    | GeneralString(tag: int, text: string)

  /** True when `o` is a tagged object whose tag number is `n`. */
  predicate HasTag(o: DerObject, n: int) {
    !o.Oid? && o.tag == n
  }

  /**
   The sequence's `getTaggedObject(n)`: the first child whose tag number is `n`,
   or `None` when no child carries that tag.
   */
  function FirstTagged(children: seq<DerObject>, n: int): (r: Option<DerObject>)
    ensures r.None? <==> forall i | 0 <= i < |children| :: !HasTag(children[i], n)
    ensures r.Some? ==> exists i | 0 <= i < |children| ::
      children[i] == r.value && HasTag(children[i], n) &&
      forall j | 0 <= j < i :: !HasTag(children[j], n)
  {
    if |children| == 0 then None
    else if HasTag(children[0], n) then Some(children[0])
    else
      var r := FirstTagged(children[1..], n);
      assert forall i | 1 <= i < |children| :: children[i] == children[1..][i - 1];
      if r.Some? then
        var k :| 0 <= k < |children[1..]| && children[1..][k] == r.value && HasTag(children[1..][k], n) &&
          forall j | 0 <= j < k :: !HasTag(children[1..][j], n);
        assert children[k + 1] == r.value;
        r
      else
        r
  }

  /** A tagged child that is first with its tag number is what `FirstTagged` finds. */
  lemma FirstTaggedFinds(children: seq<DerObject>, i: nat, n: int)
    requires i < |children| && HasTag(children[i], n)
    requires forall j | 0 <= j < i :: !HasTag(children[j], n)
    ensures FirstTagged(children, n) == Some(children[i])
  {
  }
}

=== FILE: exceptions.dfy ===
/**
 Java exceptions as values. A provider call either returns or throws a
 `GSSException` or a `RuntimeException`; a thrown exception carries the list of
 exceptions added to it with `addSuppressed`, in the order they were added.
 */
module Exceptions {

  datatype Kind = Gss | Runtime

  /** A thrown exception: its kind, an identity for the failure, and its suppressed exceptions. */
  datatype Throwable = Throwable(kind: Kind, id: nat, suppressed: seq<Throwable>)

  /** The outcome of one call into the GSS provider. */
  datatype Outcome<+T> = Ok(value: T) | GssErr(id: nat) | RtErr(id: nat)

  /** The exception a failed provider call throws; it has nothing suppressed yet. */
  function Raised<T>(o: Outcome<T>): (e: Throwable)
    requires !o.Ok?
    ensures e.suppressed == []
    ensures e.kind == Gss <==> o.GssErr?
  {
    Throwable(if o.GssErr? then Gss else Runtime, o.id, [])
  }

  /** `e.addSuppressed(x)`: `e` keeps its identity and records `x` last. */
  function AddSuppressed(e: Throwable, x: Throwable): (r: Throwable)
    ensures r.kind == e.kind && r.id == e.id
    ensures r.suppressed == e.suppressed + [x]
  {
    e.(suppressed := e.suppressed + [x])
  }
}

=== FILE: kerberos_details.dfy ===
/**
 The summary of a completed accept: initiator and acceptor names, the remaining
 lifetime, the negotiated session-key algorithm and the response token, with the
 user-name and domain views of the initiator name. Its fields are final; the
 response array is shared by reference, which this value model does not capture.
 */
module Details {
  import opened Wrappers
  import opened Der
  import opened Exceptions

  /** What the extended session-key inquiry hands back. */
  datatype InquiryValue = EncryptionKey(algorithm: string) | OtherValue | NullValue

  /**
   The accepted security context, as far as the summary reads it. The names are
   their string forms; `sessionKeyInquiry` is absent when the context is not an
   extended context and otherwise the outcome of the inquiry.
   */
  datatype SecContext = SecContext(
    srcName: Outcome<string>,
    targName: Outcome<string>,
    lifetime: int,
    sessionKeyInquiry: Option<Outcome<InquiryValue>>)

  datatype KerberosDetails = KerberosDetails(
    source: Option<string>,
    target: Option<string>,
    remainingLifetimeSeconds: int,
    sessionKeyAlgorithm: Option<string>,
    responseToken: Option<seq<byte>>)

  /** The inquiry ran on an extended context and yielded an encryption key. */
  predicate YieldsKey(ctx: SecContext) {
    && ctx.sessionKeyInquiry.Some?
    && ctx.sessionKeyInquiry.value.Ok?
    && ctx.sessionKeyInquiry.value.value.EncryptionKey?
  }

  /**
   `getSessionKeyAlgorithm`: the key's algorithm, or absent when the context is not
   extended, the inquiry throws, or it yields anything but an encryption key.
   */
  function SessionKeyAlgorithm(ctx: SecContext): (r: Option<string>)
    ensures r.Some? <==> YieldsKey(ctx)
    ensures r.Some? ==> r.value == ctx.sessionKeyInquiry.value.value.algorithm
  {
    match ctx.sessionKeyInquiry
    case Some(Ok(EncryptionKey(alg))) => Some(alg)
    case _ => None
  }

  /** The constructor: every value is stored verbatim, the names in their string form. */
  function New(source: string, target: string, lifetime: int, algorithm: Option<string>,
               response: Option<seq<byte>>): (d: KerberosDetails)
    ensures d.source == Some(source) && d.target == Some(target)
    ensures d.remainingLifetimeSeconds == lifetime
    ensures d.sessionKeyAlgorithm == algorithm
    ensures d.responseToken == response
  {
    KerberosDetails(Some(source), Some(target), lifetime, algorithm, response)
  }

  /**
   `createInstance`: read the initiator name, the acceptor name, the lifetime and
   the session-key algorithm, in that order; a failing name lookup propagates.
   */
  function CreateInstance(ctx: SecContext, response: Option<seq<byte>>): (r: Result<KerberosDetails, Throwable>)
    ensures r.Success? <==> ctx.srcName.Ok? && ctx.targName.Ok?
    ensures !ctx.srcName.Ok? ==> r == Failure(Raised(ctx.srcName))
    ensures ctx.srcName.Ok? && !ctx.targName.Ok? ==> r == Failure(Raised(ctx.targName))
    ensures r.Success? ==>
      && r.value.source == Some(ctx.srcName.value)
      && r.value.target == Some(ctx.targName.value)
      && r.value.remainingLifetimeSeconds == ctx.lifetime
      && r.value.sessionKeyAlgorithm == SessionKeyAlgorithm(ctx)
      && r.value.responseToken == response
  {
    match ctx.srcName
    case Ok(src) =>
      (match ctx.targName
       case Ok(targ) => Success(New(src, targ, ctx.lifetime, SessionKeyAlgorithm(ctx), response))
       case _ => Failure(Raised(ctx.targName)))
    case _ => Failure(Raised(ctx.srcName))
  }

  /** `String.indexOf(c)`: the first position of `c` in `s`, or -1. */
  function IndexOf(s: string, c: char): (r: int)
    ensures r == -1 <==> c !in s
    ensures r != -1 ==> 0 <= r < |s| && s[r] == c
    ensures r != -1 ==> forall j | 0 <= j < r :: s[j] != c
  {
    if |s| == 0 then -1
    else if s[0] == c then 0
    else
      var k := IndexOf(s[1..], c);
      if k == -1 then -1 else k + 1
  }

  /** `getUserName`: the initiator name up to its first '@', or all of it when there is none. */
  function UserName(d: KerberosDetails): (r: Option<string>)
    ensures r.Some? <==> d.source.Some?
    ensures r.Some? ==> '@' !in r.value && r.value <= d.source.value
    ensures r.Some? && '@' in d.source.value ==> d.source.value[|r.value|] == '@'
    ensures r.Some? && '@' !in d.source.value ==> r == d.source
  {
    match d.source
    case None => None
    case Some(s) =>
      var pos := IndexOf(s, '@');
      if pos != -1 then Some(s[..pos]) else Some(s)
  }

  /** `getDomain`: the initiator name after its first '@' (possibly empty), absent when there is no '@'. */
  function Domain(d: KerberosDetails): (r: Option<string>)
    ensures r.Some? <==> d.source.Some? && '@' in d.source.value
    ensures r.Some? ==>
      var s := d.source.value;
      && |r.value| < |s|
      && s[|s| - |r.value| - 1] == '@'
      && '@' !in s[..|s| - |r.value| - 1]
      && s[|s| - |r.value|..] == r.value
  {
    match d.source
    case None => None
    case Some(s) =>
      var pos := IndexOf(s, '@');
      if pos != -1 then Some(s[pos + 1..]) else None
  }

  /** With an '@' in the initiator name, the user name, an '@' and the domain spell the name again. */
  lemma SplitAtFirstAt(d: KerberosDetails)
    requires d.source.Some? && '@' in d.source.value
    ensures UserName(d).value + "@" + Domain(d).value == d.source.value
    ensures '@' !in UserName(d).value
  {
  }

  /** Without an '@', the user name is the whole initiator name and there is no domain. */
  lemma NoRealm(d: KerberosDetails)
    requires d.source.Some? && '@' !in d.source.value
    ensures UserName(d) == d.source
    ensures Domain(d).None?
  {
  }

  /** `getResponseLength`: the number of response bytes, zero when there is no response token. */
  function ResponseLength(d: KerberosDetails): (n: nat)
    ensures n == 0 <==> d.responseToken.None? || d.responseToken.value == []
    ensures d.responseToken.Some? ==> n == |d.responseToken.value|
  {
    match d.responseToken
    case None => 0
    case Some(token) => |token|
  }
}

=== FILE: neg_token_init.dfy ===
/**
 The SPNEGO NegTokenInit codec. It works on the DER object tree: `Decode` reads the
 mechanism-independent framing of section 3.1 of RFC 2743 (an application-tagged
 wrapper whose first object is a mechanism OID) and then either accepts a bare
 Kerberos v5 token or decodes the NegTokenInit fields of section 4.2.1 of RFC 4178;
 `Encode` builds the object list of an initial SPNEGO offer.
 */
module NegToken {
  import opened Wrappers
  import opened Der
  import opened Oids

  /** The context-flags value of a token whose flags were never decoded. */
  const NoContextFlags: int := -1

  /**
   The state of a NegTokenInit object. `mechTypes` is the Java array, which may be
   absent and whose slots may be empty; the principal is the non-standard
   mechListMIC principal string.
   */
  datatype NegTokenInit = NegTokenInit(
    mechTypes: Option<seq<Option<MechOid>>>,
    contextFlags: int,
    mechToken: Option<seq<byte>>,
    principal: Option<string>)

  /** The token built by the no-argument constructor, ready to decode into. */
  function ForDecoding(): (t: NegTokenInit)
    ensures t.mechTypes.None? && NumberOfOids(t) == 0 && t.contextFlags == NoContextFlags
    ensures t.mechToken.None? && t.principal.None?
  {
    NegTokenInit(None, NoContextFlags, None, None)
  }

  /** The token built by the encoding constructors from a mechanism list and principal. */
  function ForEncoding(mechTypes: Option<seq<Option<MechOid>>>, principal: Option<string>): (t: NegTokenInit)
    ensures t.mechTypes == mechTypes && t.principal == principal
    ensures t.contextFlags == NoContextFlags && t.mechToken.None?
  {
    NegTokenInit(mechTypes, NoContextFlags, None, principal)
  }

  /** The `IOException`s decode raises, one per distinct message, plus a failure of the DER library itself. */
  datatype DecodeError =
    | DerFailure            // the DER library could not unpack the byte range
    | InvalidSecurityBlob   // the first object of the wrapper is not an OID
    | UnsupportedMechanism  // the leading OID is neither Kerberos v5 nor SPNEGO
    | BadObjectType         // the SPNEGO payload is not a sequence
    | NoMechTypes           // no tag-0 field
    | InvalidMechTypes      // the tag-0 field is not a sequence
    | BadMechTypeOid        // an OID of the mechanism list is rejected by the OID parser
    | NoMechToken           // no tag-2 field
    | InvalidMechToken      // the tag-2 field is not an octet string

  /** Encoding dereferences every mechanism; an absent array or an empty slot throws. */
  datatype EncodeError = NullMechTypes

  /** One read from the DER buffer: the object found (absent when there is none), or a library failure. */
  datatype DerRead = Read(obj: Option<DerObject>) | ReadFailed

  /**
   The two reads `decode` can make from the DER buffer over `buf[off..off+len]`:
   `unpackApplicationSpecific` for the first object inside the application
   wrapper and `unpackObject` for the object after it. The second read is only
   made on the SPNEGO path.
   */
  datatype DerBuffer = DerBuffer(applicationSpecific: DerRead, nextObject: DerRead)

  /** The DER library's buffer over a byte range of the input array. */
  type Unpacker = (seq<byte>, int, int) -> DerBuffer

  // ----- Accessors -----

  /** `numberOfOids`. */
  function NumberOfOids(t: NegTokenInit): (n: nat)
    ensures t.mechTypes.None? ==> n == 0
    ensures t.mechTypes.Some? ==> n == |t.mechTypes.value|
  {
    match t.mechTypes
    case None => 0
    case Some(arr) => |arr|
  }

  /** `getOidAt`: the OID in slot `idx`, absent when out of range or when the slot is empty. */
  function GetOidAt(t: NegTokenInit, idx: int): (r: Option<MechOid>)
    ensures r.Some? ==> 0 <= idx < NumberOfOids(t) && t.mechTypes.value[idx] == r
    ensures 0 <= idx < NumberOfOids(t) ==> r == t.mechTypes.value[idx]
  {
    if t.mechTypes.Some? && 0 <= idx < |t.mechTypes.value| then t.mechTypes.value[idx] else None
  }

  /** `hasOid`: membership in the mechanism array; false when there is no array. */
  function HasOid(t: NegTokenInit, oid: MechOid): (b: bool)
    ensures b <==> exists i | 0 <= i < NumberOfOids(t) :: GetOidAt(t, i) == Some(oid)
  {
    match t.mechTypes
    case None => false
    case Some(arr) =>
      var b := Some(oid) in arr;
      assert b ==> exists i | 0 <= i < |arr| :: GetOidAt(t, i) == Some(oid) by {
        if b {
          var i :| 0 <= i < |arr| && arr[i] == Some(oid);
          assert GetOidAt(t, i) == Some(oid);
        }
      }
      b
  }

  // ----- The mechanism list -----

  /** The OID values of the OID children of a mechanism-list sequence, in order; other children are skipped. */
  function OidChildren(children: seq<DerObject>): seq<MechOid> {
    if |children| == 0 then []
    else
      var last := children[|children| - 1];
      OidChildren(children[..|children| - 1]) + (if last.Oid? then [MechOid(last.id)] else [])
  }

  /** Every OID child of the mechanism list is accepted by the OID parser. */
  predicate AllOidsValid(children: seq<DerObject>, valid: string -> bool) {
    forall i | 0 <= i < |children| :: children[i].Oid? ==> valid(children[i].id)
  }

  /** An array of `n` slots holding `oids` at the front and empty slots after them. */
  function Slots(oids: seq<MechOid>, n: nat): (r: seq<Option<MechOid>>)
    requires |oids| <= n
  {
    seq(n, i requires 0 <= i < n => if i < |oids| then Some(oids[i]) else None)
  }

  /** Filtering keeps order: the OIDs of a concatenation are the OIDs of each part, concatenated. */
  lemma {:induction false} OidChildrenAppend(a: seq<DerObject>, b: seq<DerObject>)
    ensures OidChildren(a + b) == OidChildren(a) + OidChildren(b)
    decreases |b|
  {
    if |b| == 0 {
      assert a + b == a;
    } else {
      var ab := a + b;
      assert ab[..|ab| - 1] == a + b[..|b| - 1];
      assert ab[|ab| - 1] == b[|b| - 1];
      OidChildrenAppend(a, b[..|b| - 1]);
    }
  }

  /** There are never more OIDs than children. */
  lemma {:induction false} OidChildrenBound(children: seq<DerObject>)
    ensures |OidChildren(children)| <= |children|
  {
    if |children| > 0 {
      OidChildrenBound(children[..|children| - 1]);
    }
  }

  /**
   The mechanism array decoded from the tag-0 sequence: one slot per child, the OID
   children in their original order at the front, empty slots after them.
   */
  function MechTypeArray(children: seq<DerObject>, valid: string -> bool): (r: Result<seq<Option<MechOid>>, DecodeError>)
    ensures r.Failure? <==> exists i | 0 <= i < |children| :: children[i].Oid? && !valid(children[i].id)
    ensures r.Failure? ==> r.error == BadMechTypeOid
    ensures r.Success? ==> |r.value| == |children|
    ensures r.Success? ==> |OidChildren(children)| <= |children|
    ensures r.Success? ==> forall i | 0 <= i < |children| ::
      r.value[i] == if i < |OidChildren(children)| then Some(OidChildren(children)[i]) else None
  {
    OidChildrenBound(children);
    if AllOidsValid(children, valid) then Success(Slots(OidChildren(children), |children|))
    else Failure(BadMechTypeOid)
  }

  /**
   The loop of `decodeMechTypes`: allocate one slot per child, then store each OID
   child at the next free slot, stopping at the first OID the parser rejects.
   */
  method UnpackMechTypes(children: seq<DerObject>, valid: string -> bool) returns (r: Result<seq<Option<MechOid>>, DecodeError>)
    ensures r == MechTypeArray(children, valid)
  {
    var slots: seq<Option<MechOid>> := seq(|children|, _ => None);
    var idx := 0;
    var i := 0;
    while i < |children|
      invariant 0 <= i <= |children|
      invariant idx == |OidChildren(children[..i])| <= i
      invariant AllOidsValid(children[..i], valid)
      invariant slots == Slots(OidChildren(children[..i]), |children|)
    {
      assert children[..i + 1] == children[..i] + [children[i]];
      if children[i].Oid? {
        var oid := ParseOid(children[i].id, valid);
        if oid.None? {
          assert !AllOidsValid(children, valid);
          return Failure(BadMechTypeOid);
        }
        slots := slots[idx := oid];
        idx := idx + 1;
      }
      i := i + 1;
    }
    assert children[..i] == children;
    OidChildrenBound(children);
    r := Success(slots);
  }

  // ----- Decoding -----

  /** The reads of a buffer holding the packed object list `objs`: its first object, then its second. */
  function Reading(objs: seq<DerObject>): (der: DerBuffer)
    ensures der.applicationSpecific == Read(if |objs| > 0 then Some(objs[0]) else None)
    ensures der.nextObject == Read(if |objs| > 1 then Some(objs[1]) else None)
  {
    DerBuffer(Read(if |objs| > 0 then Some(objs[0]) else None), Read(if |objs| > 1 then Some(objs[1]) else None))
  }

  /**
   `setAlreadyDecoded`: the token is a bare Kerberos v5 token. Its only mechanism
   is Kerberos v5 and its mechToken is the whole input array; nothing else changes.
   */
  function SetAlreadyDecoded(t: NegTokenInit, buf: seq<byte>): (r: NegTokenInit)
    ensures r.mechTypes == Some([Some(Kerberos5)])
    ensures NumberOfOids(r) == 1 && GetOidAt(r, 0) == Some(Kerberos5) && HasOid(r, Kerberos5)
    ensures r.mechToken == Some(buf)
    ensures r.contextFlags == t.contextFlags && r.principal == t.principal
  {
    t.(mechTypes := Some([Some(Kerberos5)]), mechToken := Some(buf))
  }

  /** The context flags after decoding: a tag-1 bit string's value, otherwise the previous flags. */
  function ContextFlags(previous: int, field: Option<DerObject>): (flags: int)
    ensures (field.Some? && field.value.BitString?) ==> flags == field.value.bits
    ensures !(field.Some? && field.value.BitString?) ==> flags == previous
  {
    match field
    case Some(BitString(_, bits)) => bits
    case _ => previous
  }

  /**
   When the NegTokenInit fields of a SPNEGO payload decode: tag 0 is a sequence
   whose OID children all parse (other children are skipped) and tag 2 is an octet
   string. Tag 1 and tag 3 never cause failure.
   */
  predicate SpnegoFieldsDecode(fields: seq<DerObject>, valid: string -> bool) {
    && FirstTagged(fields, 0).Some? && FirstTagged(fields, 0).value.Sequence?
    && AllOidsValid(FirstTagged(fields, 0).value.children, valid)
    && FirstTagged(fields, 2).Some? && FirstTagged(fields, 2).value.OctetString?
  }

  /** `decodeMechTypes`: the NegTokenInit fields of the SPNEGO payload sequence. */
  function DecodeFields(t: NegTokenInit, fields: seq<DerObject>, valid: string -> bool): (r: Result<NegTokenInit, DecodeError>)
    ensures r.Success? <==> SpnegoFieldsDecode(fields, valid)
    ensures FirstTagged(fields, 0).None? ==> r == Failure(NoMechTypes)
    ensures FirstTagged(fields, 0).Some? && !FirstTagged(fields, 0).value.Sequence? ==> r == Failure(InvalidMechTypes)
    ensures (FirstTagged(fields, 0).Some? && FirstTagged(fields, 0).value.Sequence?
             && !AllOidsValid(FirstTagged(fields, 0).value.children, valid)) ==> r == Failure(BadMechTypeOid)
    ensures (FirstTagged(fields, 0).Some? && FirstTagged(fields, 0).value.Sequence?
             && AllOidsValid(FirstTagged(fields, 0).value.children, valid)) ==>
      && (FirstTagged(fields, 2).None? ==> r == Failure(NoMechToken))
      && (FirstTagged(fields, 2).Some? && !FirstTagged(fields, 2).value.OctetString? ==> r == Failure(InvalidMechToken))
    ensures r.Success? ==>
      && r.value.mechTypes == Some(MechTypeArray(FirstTagged(fields, 0).value.children, valid).value)
      && r.value.contextFlags == ContextFlags(t.contextFlags, FirstTagged(fields, 1))
      && r.value.mechToken == Some(FirstTagged(fields, 2).value.octets)
      && r.value.principal == t.principal
  {
    match FirstTagged(fields, 0)
    case None => Failure(NoMechTypes)
    case Some(mechList) =>
      if !mechList.Sequence? then Failure(InvalidMechTypes)
      else
        match MechTypeArray(mechList.children, valid)
        case Failure(e) => Failure(e)
        case Success(arr) =>
          var flags := ContextFlags(t.contextFlags, FirstTagged(fields, 1));
          match FirstTagged(fields, 2)
          case None => Failure(NoMechToken)
          case Some(token) =>
            if token.OctetString? then
              Success(t.(mechTypes := Some(arr), contextFlags := flags, mechToken := Some(token.octets)))
            else
              Failure(InvalidMechToken)
  }

  /**
   `decodeFromSPNEGO`: read the object after the SPNEGO OID, which must be a
   sequence of fields.
   */
  function DecodeFromSpnego(t: NegTokenInit, next: DerRead, valid: string -> bool): (r: Result<NegTokenInit, DecodeError>)
    ensures next.ReadFailed? ==> r == Failure(DerFailure)
    ensures next.Read? && !(next.obj.Some? && next.obj.value.Sequence?) ==> r == Failure(BadObjectType)
    ensures next.Read? && next.obj.Some? && next.obj.value.Sequence? ==> r == DecodeFields(t, next.obj.value.children, valid)
  {
    match next
    case ReadFailed => Failure(DerFailure)
    case Read(Some(Sequence(_, fields))) => DecodeFields(t, fields, valid)
    case Read(_) => Failure(BadObjectType)
  }

  /**
   `decodeWithOid`: branch on the leading mechanism OID. `buf` is the whole input
   array, which the Kerberos v5 path keeps verbatim; only the SPNEGO path reads on.
   */
  function DecodeWithOid(t: NegTokenInit, buf: seq<byte>, id: string, next: DerRead, valid: string -> bool): (r: Result<NegTokenInit, DecodeError>)
    ensures id == Kerberos5Id ==> r == Success(SetAlreadyDecoded(t, buf))
    ensures id == SpnegoId ==> r == DecodeFromSpnego(t, next, valid)
    ensures id != Kerberos5Id && id != SpnegoId ==> r == Failure(UnsupportedMechanism)
  {
    if id == Kerberos5Id then Success(SetAlreadyDecoded(t, buf))
    else if id == SpnegoId then DecodeFromSpnego(t, next, valid)
    else Failure(UnsupportedMechanism)
  }

  /**
   `decode(buf, off, len)`: read the first object of the application wrapper over
   the byte range; it must be a mechanism OID, which decides how decoding goes on.
   */
  function Decode(t: NegTokenInit, buf: seq<byte>, off: int, len: int, unpack: Unpacker, valid: string -> bool): (r: Result<NegTokenInit, DecodeError>)
    ensures var der := unpack(buf, off, len);
      && (der.applicationSpecific.ReadFailed? ==> r == Failure(DerFailure))
      && (der.applicationSpecific.Read? && !(der.applicationSpecific.obj.Some? && der.applicationSpecific.obj.value.Oid?)
          ==> r == Failure(InvalidSecurityBlob))
      && (der.applicationSpecific.Read? && der.applicationSpecific.obj.Some? && der.applicationSpecific.obj.value.Oid?
          ==> r == DecodeWithOid(t, buf, der.applicationSpecific.obj.value.id, der.nextObject, valid))
    ensures r.Success? ==> r.value.principal == t.principal && r.value.mechToken.Some? && r.value.mechTypes.Some?
  {
    var der := unpack(buf, off, len);
    match der.applicationSpecific
    case ReadFailed => Failure(DerFailure)
    case Read(Some(Oid(id))) => DecodeWithOid(t, buf, id, der.nextObject, valid)
    case Read(_) => Failure(InvalidSecurityBlob)
  }

  /**
   The Kerberos v5 path reads nothing past the leading OID and ignores the byte
   range: whenever the first read finds the Kerberos v5 OID, decoding succeeds with
   the whole input array as mechToken, whatever the rest of the buffer holds.
   */
  lemma KerberosPathIgnoresRest(t: NegTokenInit, buf: seq<byte>, off1: int, len1: int, off2: int, len2: int,
                                unpack1: Unpacker, unpack2: Unpacker, valid: string -> bool)
    requires unpack1(buf, off1, len1).applicationSpecific == Read(Some(Oid(Kerberos5Id)))
    requires unpack2(buf, off2, len2).applicationSpecific == Read(Some(Oid(Kerberos5Id)))
    ensures Decode(t, buf, off1, len1, unpack1, valid) == Decode(t, buf, off2, len2, unpack2, valid)
    ensures Decode(t, buf, off1, len1, unpack1, valid) == Success(SetAlreadyDecoded(t, buf))
  {
  }

  // ----- Encoding -----

  /** `objs` are the DER OIDs of the mechanisms, one per array slot, in array order. */
  predicate EncodesMechTypes(objs: seq<DerObject>, mechs: seq<Option<MechOid>>) {
    && |objs| == |mechs|
    && forall i | 0 <= i < |mechs| :: mechs[i].Some? && objs[i] == Oid(mechs[i].value.dotted)
  }

  /** The mechTypes loop of `encode`: one DER OID per mechanism, failing on an empty slot. */
  function MechOidObjects(mechs: seq<Option<MechOid>>): (r: Result<seq<DerObject>, EncodeError>)
    ensures r.Failure? <==> None in mechs
    ensures r.Success? ==> EncodesMechTypes(r.value, mechs)
  {
    if |mechs| == 0 then Success([])
    else
      match MechOidObjects(mechs[..|mechs| - 1])
      case Failure(e) => Failure(e)
      case Success(front) =>
        match mechs[|mechs| - 1]
        case None => Failure(NullMechTypes)
        case Some(m) => Success(front + [Oid(m.dotted)])
  }

  /** The non-standard mechListMIC part of the encoding: a tag-3 sequence holding the principal under tag 0. */
  function PrincipalPart(principal: Option<string>): seq<DerObject> {
    match principal
    case None => []
    case Some(p) => [Sequence(3, [GeneralString(0, p)])]
  }

  /**
   `encode`: the object list handed to the DER packer. It holds the SPNEGO OID and
   a tag-0 sequence with the tag-0 mechanism list and, when there is a principal,
   the tag-3 principal part. Context flags and the mechToken are never encoded.
   */
  function Encode(t: NegTokenInit): (r: Result<seq<DerObject>, EncodeError>)
    ensures r.Failure? <==> t.mechTypes.None? || None in t.mechTypes.value
    ensures r.Success? ==>
      && |r.value| == 2
      && r.value[0] == Oid(SpnegoId)
      && r.value[1].Sequence? && r.value[1].tag == 0
      && |r.value[1].children| >= 1
      && r.value[1].children[0].Sequence? && r.value[1].children[0].tag == 0
      && EncodesMechTypes(r.value[1].children[0].children, t.mechTypes.value)
      && r.value[1].children[1..] == PrincipalPart(t.principal)
  {
    match t.mechTypes
    case None => Failure(NullMechTypes)
    case Some(mechs) =>
      match MechOidObjects(mechs)
      case Failure(e) => Failure(e)
      case Success(oids) =>
        var fields := [Sequence(0, oids)] + PrincipalPart(t.principal);
        assert fields[1..] == PrincipalPart(t.principal);
        Success([Oid(SpnegoId), Sequence(0, fields)])
  }

  /** The encoded fields carry the mechanism list under tag 0 and neither tag 1 nor tag 2. */
  lemma EncodedFieldTags(t: NegTokenInit)
    requires Encode(t).Success?
    ensures FirstTagged(Encode(t).value[1].children, 0) == Some(Encode(t).value[1].children[0])
    ensures FirstTagged(Encode(t).value[1].children, 1).None?
    ensures FirstTagged(Encode(t).value[1].children, 2).None?
  {
  }

  /** The OIDs of an encoded mechanism list are the mechanisms, in order. */
  lemma {:induction false} EncodedOidChildren(objs: seq<DerObject>, mechs: seq<Option<MechOid>>)
    requires EncodesMechTypes(objs, mechs)
    ensures |OidChildren(objs)| == |mechs|
    ensures forall i | 0 <= i < |mechs| :: Some(OidChildren(objs)[i]) == mechs[i]
  {
    if |objs| > 0 {
      var n := |objs| - 1;
      assert EncodesMechTypes(objs[..n], mechs[..n]);
      EncodedOidChildren(objs[..n], mechs[..n]);
    }
  }

  /**
   Decoding never accepts an encoded token: the encoding has no tag-2 mechToken, so
   decode fails with "No mechToken in blob", or earlier when the OID parser rejects
   one of the encoded mechanisms.
   */
  lemma DecodeRejectsEncoding(t: NegTokenInit, t0: NegTokenInit, buf: seq<byte>, off: int, len: int, valid: string -> bool)
    requires Encode(t).Success?
    ensures Decode(t0, buf, off, len, (_, _, _) => Reading(Encode(t).value), valid) ==
      Failure(if forall i | 0 <= i < |t.mechTypes.value| :: valid(t.mechTypes.value[i].value.dotted)
              then NoMechToken else BadMechTypeOid)
  {
  }

  /**
   The mechanism list does survive encoding: once a tag-2 mechToken is added to the
   encoded fields, decoding recovers the mechanism array, the token, and no flags.
   */
  lemma EncodedMechListRecovered(t: NegTokenInit, buf: seq<byte>, token: seq<byte>, valid: string -> bool)
    requires Encode(t).Success?
    requires forall i | 0 <= i < |t.mechTypes.value| :: valid(t.mechTypes.value[i].value.dotted)
    ensures var objs := Encode(t).value;
      var withToken := [objs[0], Sequence(0, objs[1].children + [OctetString(2, token)])];
      var r := Decode(ForDecoding(), buf, 0, |buf|, (_, _, _) => Reading(withToken), valid);
      && r.Success?
      && r.value.mechTypes == t.mechTypes
      && r.value.mechToken == Some(token)
      && r.value.contextFlags == NoContextFlags
  {
    var objs := Encode(t).value;
    var mechs := t.mechTypes.value;
    var fields := objs[1].children + [OctetString(2, token)];
    var oids := objs[1].children[0].children;
    EncodedFieldTags(t);
    FirstTaggedFinds(fields, 0, 0);
    assert fields[|fields| - 1] == OctetString(2, token);
    FirstTaggedFinds(fields, |fields| - 1, 2);
    assert forall i | 0 <= i < |fields| - 1 :: fields[i] == objs[1].children[i];
    assert FirstTagged(fields, 1).None?;
    assert AllOidsValid(oids, valid) by {
      assert forall i | 0 <= i < |mechs| :: oids[i] == Oid(mechs[i].value.dotted);
    }
    EncodedOidChildren(oids, mechs);
    var arr := MechTypeArray(oids, valid).value;
    assert arr == mechs;
  }

  /**
   A SPNEGO offer of Kerberos v5 with context flags 0x20 and a three-byte mechToken
   decodes to one mechanism, those flags and that token.
   */
  lemma SpnegoKerberosOffer(buf: seq<byte>, valid: string -> bool)
    requires valid(Kerberos5Id)
    ensures var fields := [Sequence(0, [Oid(Kerberos5Id)]), BitString(1, 0x20), OctetString(2, [1, 2, 3])];
      var r := Decode(ForDecoding(), buf, 0, |buf|, (_, _, _) => Reading([Oid(SpnegoId), Sequence(0, fields)]), valid);
      && r.Success?
      && NumberOfOids(r.value) == 1
      && GetOidAt(r.value, 0) == Some(Kerberos5)
      && r.value.contextFlags == 0x20
      && r.value.mechToken == Some([1, 2, 3])
      && HasOid(r.value, Kerberos5)
      && !HasOid(r.value, Ntlmssp)
  {
    var fields := [Sequence(0, [Oid(Kerberos5Id)]), BitString(1, 0x20), OctetString(2, [1, 2, 3])];
    FirstTaggedFinds(fields, 0, 0);
    FirstTaggedFinds(fields, 1, 1);
    FirstTaggedFinds(fields, 2, 2);
    assert OidChildren([Oid(Kerberos5Id)]) == [Kerberos5];
  }

  /** An empty mechanism list is not an error: it encodes an empty tag-0 sequence. */
  lemma EmptyMechListEncodes(principal: Option<string>)
    ensures Encode(ForEncoding(Some([]), principal)) ==
      Success([Oid(SpnegoId), Sequence(0, [Sequence(0, [])] + PrincipalPart(principal))])
  {
  }
}

=== FILE: oids.dfy ===
/**
 The well-known mechanism identifiers of the negotiation layer, in their dotted
 string form, and the mechanism OID value type that `org.ietf.jgss.Oid` stands for.
 */
module Oids {
  import opened Wrappers

  /** SPNEGO, section 4.1 of RFC 4178. */
  const SpnegoId: string := "1.3.6.1.5.5.2"
  /** Kerberos v5 GSS-API mechanism, RFC 1964. */
  const Kerberos5Id: string := "1.2.840.113554.1.2.2"
  /** The Kerberos v5 identifier Microsoft clients historically send. */
  const MsKerberos5Id: string := "1.2.840.48018.1.2.2"
  /** Kerberos user-to-user. */
  const Krb5UserToUserId: string := "1.2.840.113554.1.2.2.3"
  /** Microsoft NTLM security support provider. */
  const NtlmsspId: string := "1.3.6.1.4.1.311.2.2.10"

  /**
   A mechanism OID value. Equality is structural on the dotted form, which is also
   what the value's `toString` yields.
   */
  datatype MechOid = MechOid(dotted: string)

  const Spnego: MechOid := MechOid(SpnegoId)
  const Kerberos5: MechOid := MechOid(Kerberos5Id)
  const MsKerberos5: MechOid := MechOid(MsKerberos5Id)
  const Krb5UserToUser: MechOid := MechOid(Krb5UserToUserId)
  const Ntlmssp: MechOid := MechOid(NtlmsspId)

  /**
   `new Oid(s)`: the OID value for `s`, or `None` where the constructor throws.
   Which strings the provider accepts is left to the `valid` parameter.
   */
  function ParseOid(s: string, valid: string -> bool): (r: Option<MechOid>)
    ensures r.Some? <==> valid(s)
    ensures r.Some? ==> r.value.dotted == s
  {
    if valid(s) then Some(MechOid(s)) else None
  }
}

=== FILE: session_setup.dfy ===
/**
 The session-setup action: acquire an acceptor credential and a security context
 from the GSS provider, accept the inbound token, summarise the result, and release
 both handles whatever happened. The provider is represented by the outcome of each
 call it is asked to make, so every call and every disposal is visible in the model.
 */
module SessionSetup {
  import opened Wrappers
  import opened Der
  import opened Exceptions
  import opened Details

  /** The two provider resources the action owns and must dispose. */
  datatype Handle = Credential | Context

  /**
   The `GSSData` resource: `Open` while it holds the name, credential and context
   handles, `Closed` once `closeImpl` has nulled them.
   */
  datatype GssData = Open | Closed

  /** The outcome of every provider call one run of the action can make. */
  datatype Provider = Provider(
    createName: Outcome<()>,
    createCredential: Outcome<()>,
    createContext: Outcome<()>,
    accept: Outcome<Option<seq<byte>>>,
    context: SecContext,
    disposeCredential: Outcome<()>,
    disposeContext: Outcome<()>)

  /** What `GSSData.create` produces: the resource or the exception it throws, and the handles it disposed. */
  datatype Created = Created(data: Option<GssData>, disposed: seq<Handle>, thrown: Option<Throwable>)

  /** What `close` leaves: the resource's new state, the handles it disposed, and the exception it throws. */
  datatype CloseResult = CloseResult(data: GssData, disposed: seq<Handle>, thrown: Option<Throwable>)

  /** How `run` ends: returning details or null, or with a runtime exception escaping. */
  datatype RunOutcome = Returned(details: Option<KerberosDetails>) | Escaped(error: Throwable)

  /** One run of the action: how it ended and the handles it disposed, in order. */
  datatype RunResult = RunResult(outcome: RunOutcome, disposed: seq<Handle>)

  /** The handles the provider hands out during `create`, in acquisition order. */
  function Acquired(p: Provider): seq<Handle> {
    if p.createName.Ok? && p.createCredential.Ok? then
      [Credential] + (if p.createContext.Ok? then [Context] else [])
    else []
  }

  /**
   `GSSData.create`: create the name and the credential, then the context. When the
   context cannot be created the credential is disposed, any disposal failure is
   suppressed onto the creation failure, and the creation failure is rethrown.
   */
  function Create(p: Provider): (r: Created)
    ensures r.data.Some? <==> r.thrown.None?
    ensures r.thrown.None? <==> p.createName.Ok? && p.createCredential.Ok? && p.createContext.Ok?
    ensures r.data.Some? ==> r.data.value == Open && r.disposed == []
    ensures !p.createName.Ok? ==> r.thrown == Some(Raised(p.createName)) && r.disposed == []
    ensures p.createName.Ok? && !p.createCredential.Ok? ==>
      r.thrown == Some(Raised(p.createCredential)) && r.disposed == []
    ensures p.createName.Ok? && p.createCredential.Ok? && !p.createContext.Ok? ==>
      && r.disposed == [Credential]
      && r.thrown.Some?
      && r.thrown.value.kind == Raised(p.createContext).kind
      && r.thrown.value.id == p.createContext.id
      && r.thrown.value.suppressed ==
         (if p.disposeCredential.Ok? then [] else [Raised(p.disposeCredential)])
  {
    if !p.createName.Ok? then Created(None, [], Some(Raised(p.createName)))
    else if !p.createCredential.Ok? then Created(None, [], Some(Raised(p.createCredential)))
    else if p.createContext.Ok? then Created(Some(Open), [], None)
    else
      var e := Raised(p.createContext);
      var e' := if p.disposeCredential.Ok? then e else AddSuppressed(e, Raised(p.disposeCredential));
      Created(None, [Credential], Some(e'))
  }

  /**
   `closeImpl`: dispose the credential, then the context, whatever the credential
   did, and throw the aggregated failure. A GSS failure of the credential is thrown
   with any context failure suppressed on it; otherwise a GSS failure of the context
   is thrown with any runtime failure of the credential suppressed on it; two runtime
   failures throw the context's alone; a single failure is thrown alone.
   */
  function CloseImpl(credential: Outcome<()>, context: Outcome<()>): (thrown: Option<Throwable>)
    ensures credential.GssErr? ==>
      thrown == Some(if context.Ok? then Raised(credential) else AddSuppressed(Raised(credential), Raised(context)))
    ensures credential.RtErr? && context.GssErr? ==>
      thrown == Some(AddSuppressed(Raised(context), Raised(credential)))
    ensures credential.RtErr? && context.RtErr? ==> thrown == Some(Raised(context))
    ensures credential.RtErr? && context.Ok? ==> thrown == Some(Raised(credential))
    ensures credential.Ok? ==> thrown == (if context.Ok? then None else Some(Raised(context)))
  {
    // eMain holds the GSS failure to throw, erMain the runtime failure.
    var (eMain, erMain) :=
      match credential
      case Ok(_) => (None, None)
      case GssErr(_) => (Some(Raised(credential)), None)
      case RtErr(_) => (None, Some(Raised(credential)));
    var (eMain', erMain') :=
      match context
      case Ok(_) => (eMain, erMain)
      case GssErr(_) =>
        if eMain.None? then
          (Some(if erMain.Some? then AddSuppressed(Raised(context), erMain.value) else Raised(context)), erMain)
        else (Some(AddSuppressed(eMain.value, Raised(context))), erMain)
      case RtErr(_) =>
        if eMain.None? then (None, Some(Raised(context)))
        else (Some(AddSuppressed(eMain.value, Raised(context))), erMain);
    if eMain'.Some? then eMain' else erMain'
  }

  /** Disposal throws exactly when one of the disposals fails, and throws a GSS failure exactly when one of them does. */
  lemma CloseImplKind(credential: Outcome<()>, context: Outcome<()>)
    ensures CloseImpl(credential, context).None? <==> credential.Ok? && context.Ok?
    ensures CloseImpl(credential, context).Some? ==>
      (CloseImpl(credential, context).value.kind == Gss <==> credential.GssErr? || context.GssErr?)
  {
  }

  /** `close`: run `closeImpl` while the resource still holds its handles; afterwards do nothing. */
  function Close(d: GssData, disposeCredential: Outcome<()>, disposeContext: Outcome<()>): (r: CloseResult)
    ensures r.data == Closed
    ensures d == Closed ==> r.disposed == [] && r.thrown.None?
    ensures d == Open ==> r.disposed == [Credential, Context]
    ensures d == Open ==> r.thrown == CloseImpl(disposeCredential, disposeContext)
  {
    match d
    case Closed => CloseResult(Closed, [], None)
    case Open => CloseResult(Closed, [Credential, Context], CloseImpl(disposeCredential, disposeContext))
  }

  /** Closing twice is closing once: the second close disposes nothing and throws nothing. */
  lemma CloseIdempotent(d: GssData, c1: Outcome<()>, x1: Outcome<()>, c2: Outcome<()>, x2: Outcome<()>)
    ensures var first := Close(d, c1, x1);
      var second := Close(first.data, c2, x2);
      second.data == first.data && second.disposed == [] && second.thrown.None?
  {
  }

  /**
   The try-with-resources statement of JLS section 14.20.3: when the body throws, a
   failure of `close` is suppressed onto the body's exception; when the body
   completes, a failure of `close` replaces its result.
   */
  function TryWithResources<T>(body: Result<T, Throwable>, closeThrown: Option<Throwable>): (r: Result<T, Throwable>)
    ensures r.Success? <==> body.Success? && closeThrown.None?
    ensures r.Success? ==> r.value == body.value
    ensures body.Failure? ==> r.error.kind == body.error.kind && r.error.id == body.error.id
    ensures body.Failure? ==>
      r.error.suppressed == body.error.suppressed + (if closeThrown.Some? then [closeThrown.value] else [])
    ensures body.Success? && closeThrown.Some? ==> r == Failure(closeThrown.value)
  {
    match body
    case Failure(e) => Failure(if closeThrown.Some? then AddSuppressed(e, closeThrown.value) else e)
    case Success(v) => if closeThrown.Some? then Failure(closeThrown.value) else Success(v)
  }

  /** The body of the try block: accept the token and summarise the context. */
  function Body(p: Provider): (r: Result<KerberosDetails, Throwable>)
    ensures r.Success? <==> p.accept.Ok? && p.context.srcName.Ok? && p.context.targName.Ok?
    ensures !p.accept.Ok? ==> r == Failure(Raised(p.accept))
    ensures p.accept.Ok? ==> r == CreateInstance(p.context, p.accept.value)
  {
    match p.accept
    case Ok(response) => CreateInstance(p.context, response)
    case _ => Failure(Raised(p.accept))
  }

  /** The `catch (GSSException e)` of `run`: a GSS failure becomes null, a runtime failure escapes. */
  function CatchGss(r: Result<KerberosDetails, Throwable>): (o: RunOutcome)
    ensures r.Success? ==> o == Returned(Some(r.value))
    ensures r.Failure? && r.error.kind == Gss ==> o == Returned(None)
    ensures r.Failure? && r.error.kind == Runtime ==> o == Escaped(r.error)
  {
    match r
    case Success(d) => Returned(Some(d))
    case Failure(e) => if e.kind == Gss then Returned(None) else Escaped(e)
  }

  /** Every provider call of a run succeeds. */
  predicate AllSucceed(p: Provider) {
    && p.createName.Ok? && p.createCredential.Ok? && p.createContext.Ok?
    && p.accept.Ok? && p.context.srcName.Ok? && p.context.targName.Ok?
    && p.disposeCredential.Ok? && p.disposeContext.Ok?
  }

  /**
   `run`: create the resource, accept and summarise inside try-with-resources, and
   turn GSS failures into null. Every handle acquired is disposed exactly once, in
   acquisition order; details come back only when every provider call succeeds.
   */
  function Run(p: Provider): (r: RunResult)
    ensures r.disposed == Acquired(p)
    ensures r.outcome.Returned? && r.outcome.details.Some? <==> AllSucceed(p)
    ensures AllSucceed(p) ==>
      r.outcome.details.value == New(p.context.srcName.value, p.context.targName.value, p.context.lifetime,
                                     SessionKeyAlgorithm(p.context), p.accept.value)
    ensures r.outcome.Escaped? ==> r.outcome.error.kind == Runtime
    // a failure of create happens outside the try block: GSS gives null, runtime escapes as thrown
    ensures Create(p).thrown.Some? ==> r.outcome == CatchGss(Failure(Create(p).thrown.value))
    // a GSS failure anywhere before the close yields null, whatever the close does
    ensures Create(p).thrown.Some? && Create(p).thrown.value.kind == Gss ==> r.outcome == Returned(None)
    ensures Create(p).thrown.None? && Body(p).Failure? && Body(p).error.kind == Gss ==> r.outcome == Returned(None)
    // a close failure after a successful body replaces the details
    ensures Create(p).thrown.None? && Body(p).Success? && !(p.disposeCredential.Ok? && p.disposeContext.Ok?) ==>
      r.outcome == CatchGss(Failure(CloseImpl(p.disposeCredential, p.disposeContext).value))
    // a runtime failure of the body escapes, carrying any close failure as suppressed
    ensures Create(p).thrown.None? && Body(p).Failure? && Body(p).error.kind == Runtime ==>
      && r.outcome.Escaped?
      && r.outcome.error.id == Body(p).error.id
      && r.outcome.error.suppressed ==
         Body(p).error.suppressed + (if p.disposeCredential.Ok? && p.disposeContext.Ok? then []
                                     else [CloseImpl(p.disposeCredential, p.disposeContext).value])
  {
    var created := Create(p);
    match created.data
    case None => RunResult(CatchGss(Failure(created.thrown.value)), created.disposed)
    case Some(data) =>
      var closed := Close(data, p.disposeCredential, p.disposeContext);
      CloseImplKind(p.disposeCredential, p.disposeContext);
      RunResult(CatchGss(TryWithResources(Body(p), closed.thrown)), created.disposed + closed.disposed)
  }

  /** `call`: the same as `run`. */
  function Call(p: Provider): (r: RunResult)
    ensures r == Run(p)
  {
    Run(p)
  }
}

=== FILE: wrappers.dfy ===
/** Option and Result values standing for Java's `null` and for thrown exceptions. */
module Wrappers {

  /** A nullable reference: `None` stands for Java's `null`. */
  datatype Option<+T> = None | Some(value: T)

  /** The outcome of a Java operation that either returns a value or throws. */
  datatype Result<+R, +E> = Success(value: R) | Failure(error: E)
}
